=== FILE: README.md ===
# MirsalDubai record screens, modelled in Dafny

MirsalDubai is a React Native front end for vehicle clearance certificate
(VCC) records kept in a hosted document database. Its only logic with
behaviour worth stating lives in four screens:

- the **list screen** (`ViewScreen.tsx`): a live snapshot of the
  `submissions` collection, a case-insensitive search on `vccNo` /
  `chasisNo`, truncation to a page size of 10, 25, 50 or 100, and a
  delete guarded by a confirmation and a signed-in user;
- the **add screen** (`AddRecordScreen.tsx`): a fixed 21-field form whose
  values are saved as one document tagged with `userId` and `timestamp`;
- the **edit screen** (`EditRecordScreen.tsx`): lookup by `vccNo`, a
  19-field form pre-filled with the whole document, and a merge update;
- the **view screen** (`ViewRecordScreen.tsx`): lookup by `vccNo` and 21
  labelled read-only rows, dates rendered day/month/year.

The model is functional. A document is an identifier plus a
`map<string, string>` of fields; the collection is a `seq<Doc>` whose order
stands for the backend's order. The backend calls become pure functions:

- an equality query is an order-preserving filter, and the screens take its
  first element;
- `updateDoc` is a map merge;
- `deleteDoc` removes by identifier;
- `addDoc` appends.

Each screen's local state is a datatype, and its handlers are functions on
that state. The state machines are: list events folded by `Run`; add-screen
events; the edit screen's no key / not found / loaded lookup; and the view
screen's spinner / "No record found" / details.

Modules: `Wrappers` (Option, JavaScript truthiness of optional strings),
`Text` (ASCII `toLowerCase`, `includes`), `Seqs` (filter, slice, subsequence),
`Backend`, `Forms` (what the two forms share), `FieldTables` (the two form
layouts), `ListScreen`, `AddRecord`,
`EditRecord`, `DateFormat`, `ViewRecord`, `Scenarios` (properties spanning
screens).

Inputs the app gets from outside are parameters:

- the signed-in user (`Option<User>`);
- the identifier the backend assigns to a new document;
- the creation timestamp, as an opaque string;
- the platform's date parser (`string -> Option<CalendarDate>`, None being
  Invalid Date);
- whether the backend rejects a call (`rejected`);
- the route parameter `vccNo` (`Option<string>`).

Some of the code's behaviour is easy to misread:

- An empty search term does not keep every record. A record with neither
  `vccNo` nor `chasisNo` is still dropped, because optional chaining yields
  `undefined` (`ListScreen.EmptyTermKeepsKeyedRecords`).
- A view-screen lookup that finds nothing does not navigate back. The
  screen ends on "No record found" (`ViewRecord.NoMatchShowsNotFound`).
- The view screen opened without a `vccNo` returns before its `try`, so
  `loading` is never cleared and the spinner stays
  (`ViewRecord.MissingParamStaysLoading`). The edit screen does the same
  before navigating back (`EditRecord.Fetch`).
- An edit submit writes the whole `formData`. That is every fetched field,
  not only the 19 form fields; the unchanged ones are written back with
  their fetched values.
- A list entry is `{ id: doc.id, ...doc.data() }`. A document field named
  `id` therefore overrides the document identifier (`ListScreen.ToRecord`).

## Model

| member | source | states |
|---|---|---|
| Text.Contains | MirsalDubai/src/screen/ViewScreen.tsx:97-98 | `s.includes(t)` holds exactly when `t` occurs in `s` at some position |
| Text.Lower | MirsalDubai/src/screen/ViewScreen.tsx:97-98 | `toLowerCase` keeps the length, maps each character through ASCII lower-casing and leaves no upper-case ASCII letter |
| Text.ContainsEmpty | MirsalDubai/src/screen/ViewScreen.tsx:97-98 | every string includes the empty string, which is why an empty term matches any present field |
| Text.LowerIdempotent | MirsalDubai/src/screen/ViewScreen.tsx:97-98 | lower-casing an already lower-cased string changes nothing |
| Seqs.Filter | MirsalDubai/src/screen/ViewScreen.tsx:95-99 | the filtered list is no longer than the input and holds exactly the input elements that satisfy the predicate |
| Seqs.FilterAppend | MirsalDubai/src/screen/ViewScreen.tsx:95-99 | filtering distributes over concatenation, which together with the one-element case fixes the order of the result |
| Seqs.FilterIsSubsequence | MirsalDubai/src/screen/ViewScreen.tsx:95-99 | the filtered list is an order-preserving subsequence of the input |
| Seqs.Take | MirsalDubai/src/screen/ViewScreen.tsx:102 | `slice(0, n)` is a prefix of length min(n, length) |
| Seqs.TakeMonotone | MirsalDubai/src/screen/ViewScreen.tsx:122-125 | a larger page size shows a longer prefix of the same list |
| Backend.QueryEquals | MirsalDubai/src/screen/ViewScreen.tsx:72-76 | an equality query returns exactly the documents whose field is present and equal to the value |
| Backend.QueryIsSubsequence | MirsalDubai/src/screen/ViewScreen.tsx:72-76 | the query result keeps collection order |
| Backend.FirstMatch | MirsalDubai/src/screen/ViewScreen.tsx:77-78 | the position found matches, and no earlier document matches; None means no document matches |
| Backend.QueryHeadIsFirstMatch | MirsalDubai/src/screen/ViewScreen.tsx:76-78 | `querySnapshot.docs[0]` is the collection's first match, and the result is empty exactly when nothing matches |
| Backend.FirstMatchAt | MirsalDubai/src/screen/EditRecordScreen.tsx:66-67 | a matching position with no match before it is the first match |
| Backend.Merge | MirsalDubai/src/screen/EditRecordScreen.tsx:96 | a merge keeps the union of the keys; patch keys take the patch value and all other keys keep the base value |
| Backend.MergeAgreeing | MirsalDubai/src/screen/EditRecordScreen.tsx:96 | merging a patch the document already agrees with leaves the document as it was |
| Backend.UpdateDoc | MirsalDubai/src/screen/EditRecordScreen.tsx:95-96 | the update succeeds iff a document has the identifier; that document's fields are merged with the patch and every other document is unchanged |
| Backend.DeleteDoc | MirsalDubai/src/screen/ViewScreen.tsx:78-79 | after a delete, the documents left are exactly those without that identifier |
| Backend.DeleteAt | MirsalDubai/src/screen/ViewScreen.tsx:78-79 | with unique identifiers, deleting the identifier of position i removes exactly position i and keeps the rest in order |
| Backend.AddDoc | MirsalDubai/src/screen/AddRecordScreen.tsx:67-71 | adding keeps every existing document in place and adds one document with the given identifier and data |
| Backend.AddKeepsUniqueIds | MirsalDubai/src/screen/AddRecordScreen.tsx:67-71 | adding a document under a fresh identifier keeps identifiers unique |
| Backend.UpdateKeepsUniqueIds | MirsalDubai/src/screen/EditRecordScreen.tsx:95-96 | an update keeps identifiers unique |
| ListScreen.ToRecord | MirsalDubai/src/screen/ViewScreen.tsx:34-37 | a list entry has the document's keys plus `id`; document fields keep their values, and `id` is the document identifier unless the data has its own `id` |
| ListScreen.FromSnapshot | MirsalDubai/src/screen/ViewScreen.tsx:34-37 | `snapshot.docs.map` gives one list entry per document, in snapshot order |
| ListScreen.Step | MirsalDubai/src/screen/ViewScreen.tsx:33-38 | each event sets one piece of state: a snapshot the records, the search box the term (:116), a page-size button the page size (:125); a press outside the four buttons and a snapshot error change nothing |
| ListScreen.Run | MirsalDubai/src/screen/ViewScreen.tsx:26-38 | over any events, the records change only by a snapshot and the term only by typing; the last snapshot, or the last term typed, is what stays, whatever other events follow it |
| ListScreen.SnapshotReplacesRecords | MirsalDubai/src/screen/ViewScreen.tsx:33-38 | a snapshot replaces the records wholesale, whatever they were, with entry i being document i's record, in snapshot order; the search term and page size are kept |
| ListScreen.FilteredRecords | MirsalDubai/src/screen/ViewScreen.tsx:95-99 | a record is kept iff its lower-cased `vccNo` or `chasisNo` contains the lower-cased term; an absent field never matches |
| ListScreen.FilteredIsSubsequence | MirsalDubai/src/screen/ViewScreen.tsx:95-99 | the filtered list is an order-preserving subsequence of the records |
| ListScreen.EmptyTermKeepsKeyedRecords | MirsalDubai/src/screen/ViewScreen.tsx:97-98 | with an empty term a record is kept iff it has a `vccNo` or a `chasisNo` |
| ListScreen.SearchIgnoresCase | MirsalDubai/src/screen/ViewScreen.tsx:97-98 | two terms that lower-case alike select the same list |
| ListScreen.SearchByLoweredTerm | MirsalDubai/src/screen/ViewScreen.tsx:97-98 | searching with a term and with its lower-cased form gives the same list |
| ListScreen.DisplayedRecords | MirsalDubai/src/screen/ViewScreen.tsx:102 | the displayed list is the prefix of the filtered list of length min(N, filtered length), and every shown record matches the search |
| ListScreen.Shown | MirsalDubai/src/screen/ViewScreen.tsx:95-102 | the screen shows at most a page of records, each of them present and matching the current search |
| ListScreen.PageSizeIsAlwaysAButton | MirsalDubai/src/screen/ViewScreen.tsx:122-125 | if the page size is one of 10, 25, 50, 100, it stays one of them whatever events follow |
| ListScreen.PageSizeFromMount | MirsalDubai/src/screen/ViewScreen.tsx:27 | the page size starts at 50 and is one of 10, 25, 50, 100 after any events |
| ListScreen.DeleteRecord | MirsalDubai/src/screen/ViewScreen.tsx:54-92 | without confirmation or without a user the collection is unchanged; a delete happens iff confirmed, signed in, key defined, backend accepting and some document's `vccNo` equals the key; it then deletes the first such document's identifier; otherwise nothing changes |
| ListScreen.DeleteRemovesFirstMatchOnly | MirsalDubai/src/screen/ViewScreen.tsx:72-83 | with unique identifiers a delete removes exactly the first document whose `vccNo` equals the key, or nothing when none does; all others are untouched and keep their order |
| Forms.BlankForm | MirsalDubai/src/screen/AddRecordScreen.tsx:42-44 | the reduced form maps every field name to `''` and has no other key |
| Forms.SetField | MirsalDubai/src/screen/AddRecordScreen.tsx:54-56 | a change sets key `name` to the value and leaves every other key and value unchanged |
| Forms.SetFieldKeepsKeys | MirsalDubai/src/screen/AddRecordScreen.tsx:95-101 | a change issued for one of the form's field names keeps the key set unchanged |
| Forms.DistinctCardinality | MirsalDubai/src/screen/AddRecordScreen.tsx:16-38 | a list of distinct names has as many names as its set |
| AddRecord.AddFieldsDistinct | MirsalDubai/src/screen/AddRecordScreen.tsx:16-38 | the add form has 21 fields with pairwise distinct names |
| AddRecord.InitialFormShape | MirsalDubai/src/screen/AddRecordScreen.tsx:42-44 | the initial form has exactly the 21 field names as keys, each mapped to `''` |
| AddRecord.Payload | MirsalDubai/src/screen/AddRecordScreen.tsx:67-71 | the saved document is the form plus `userId` = uid and `timestamp`, which override same-named form keys |
| AddRecord.Submit | MirsalDubai/src/screen/AddRecordScreen.tsx:58-82 | with no user nothing changes; the save happens iff a user is present and the backend accepts; a save adds exactly the payload document, resets the form to the initial map and navigates back; a failure changes nothing |
| AddRecord.Step | MirsalDubai/src/screen/AddRecordScreen.tsx:48-50 | the auth listener sets only the user; the i-th input (:101) sets only its own field; the Back button (:88-93) only navigates back; no event but a submit touches the collection, and a submit does exactly what `handleSubmit` (:55-86) does |
| AddRecord.Run | MirsalDubai/src/screen/AddRecordScreen.tsx:48-101 | over events with no submit the collection is unchanged; over events with no auth change the user is unchanged |
| AddRecord.SubmitKeepsUniqueIds | MirsalDubai/src/screen/AddRecordScreen.tsx:67-71 | a save under an identifier no document has keeps identifiers unique |
| AddRecord.StepKeepsFormKeys | MirsalDubai/src/screen/AddRecordScreen.tsx:95-101 | no single screen event changes the form's key set |
| AddRecord.FormKeysInvariant | MirsalDubai/src/screen/AddRecordScreen.tsx:95-101 | after any events the form's key set is still exactly the field-name set |
| AddRecord.FormKeysFromMount | MirsalDubai/src/screen/AddRecordScreen.tsx:42-56 | from mount on, the form's keys are always exactly the 21 field names |
| AddRecord.OnlySubmitWrites | MirsalDubai/src/screen/AddRecordScreen.tsx:58-82 | after any events the earlier documents are still in place; the screen only ever adds |
| AddRecord.EarlierDocumentsStay | MirsalDubai/src/screen/AddRecordScreen.tsx:58-82 | after any events every document present before is still present, whatever position the backend gives new ones |
| EditRecord.EditFieldsDistinct | MirsalDubai/src/screen/EditRecordScreen.tsx:23-43 | the edit form has 19 fields with pairwise distinct names |
| EditRecord.EditNamesArePrefix | MirsalDubai/src/screen/EditRecordScreen.tsx:23-43 | the edit fields are the add form's first 19 names, in the same order |
| EditRecord.EditFieldsAreAddFieldsButTwo | MirsalDubai/src/screen/EditRecordScreen.tsx:23-43 | the edit form's names are the add form's names minus `printRemark` and `vccStatus` |
| EditRecord.Fetch | MirsalDubai/src/screen/EditRecordScreen.tsx:53-83 | a missing `vccNo` only navigates back; otherwise loading ends. A match loads the first match's data and id; no match or an error navigates back with no docId |
| EditRecord.Change | MirsalDubai/src/screen/EditRecordScreen.tsx:85-87 | a change updates only the form, by a single-key update |
| EditRecord.Typed | MirsalDubai/src/screen/EditRecordScreen.tsx:131 | the i-th input sets only its own field; there is no input beyond the 19th; docId, loading and navigation are untouched |
| EditRecord.TypeAll | MirsalDubai/src/screen/EditRecordScreen.tsx:125-131 | any run of typing keeps every key the form had and adds only edit-field names; the last edit's text is what its field holds afterwards; nothing but the form changes |
| EditRecord.TypingKeepsOtherKeys | MirsalDubai/src/screen/EditRecordScreen.tsx:125-131 | typing into the inputs never changes a key outside the 19 edit fields, nor docId or loading |
| Forms.DisplayValue | MirsalDubai/src/screen/EditRecordScreen.tsx:130 | an input shows the form value when present, else `''` |
| EditRecord.Shown | MirsalDubai/src/screen/EditRecordScreen.tsx:105-135 | while loading, only a spinner is shown; otherwise one displayed value per edit field, in form order |
| EditRecord.Submit | MirsalDubai/src/screen/EditRecordScreen.tsx:89-103 | with no docId nothing changes; an update happens iff a docId is set, the backend accepts and the document exists. It merges the whole form into that document only, then navigates back; a failure changes nothing |
| EditRecord.SubmitKeepsUniqueIds | MirsalDubai/src/screen/EditRecordScreen.tsx:95-96 | a submit keeps identifiers unique |
| EditRecord.SubmitUneditedIsIdempotent | MirsalDubai/src/screen/EditRecordScreen.tsx:66-96 | with unique identifiers, fetching and submitting without edits leaves the collection unchanged |
| DateFormat.Decimal | MirsalDubai/src/screen/ViewRecordScreen.tsx:46 | zero-padded decimal digits that read back as the number, of exactly the width when the number fits |
| DateFormat.EnGB | MirsalDubai/src/screen/ViewRecordScreen.tsx:46 | `toLocaleDateString('en-GB')`, the pattern `dd/MM/y`: day and month as two digits, the year unpadded; for a valid date that is ten characters: two digits, `/`, two digits, `/`, four digits |
| DateFormat.DecimalUnpadded | MirsalDubai/src/screen/ViewRecordScreen.tsx:46 | a number with at least `width` digits prints the same unpadded as padded to `width`, so a four-digit year needs no padding |
| DateFormat.ShortYearUnpadded | MirsalDubai/src/screen/ViewRecordScreen.tsx:46 | the year is not zero-padded: 1 January 500 renders as `01/01/500` |
| DateFormat.EnGBRoundTrip | MirsalDubai/src/screen/ViewRecordScreen.tsx:46 | the dd/mm/yyyy rendering of a valid date is ten characters and reads back as the same date |
| DateFormat.FormatDate | MirsalDubai/src/screen/ViewRecordScreen.tsx:43-47 | an unparseable date gives `''`; a valid parsed date gives ten characters that read back as that date |
| ViewRecord.Fetch | MirsalDubai/src/screen/ViewRecordScreen.tsx:19-41 | a missing `vccNo` changes nothing; otherwise loading ends. A match sets the record to the first match's data; no match or an error leaves it null |
| ViewRecord.RowValue | MirsalDubai/src/screen/ViewRecordScreen.tsx:66-91 | a plain row shows the field or `''`. A date row shows `''` when the field is absent or empty, and otherwise `formatDate` of the field: `''` when unparseable, the dd/mm/yyyy form of a valid date |
| ViewRecord.Project | MirsalDubai/src/screen/ViewRecordScreen.tsx:66-91 | exactly 21 rows, labels in the fixed order, each value the row's value for the record |
| ViewRecord.Render | MirsalDubai/src/screen/ViewRecordScreen.tsx:49-64 | a spinner iff loading; "No record found" iff loaded with no record; otherwise the record's rows |
| ViewRecord.MissingParamStaysLoading | MirsalDubai/src/screen/ViewRecordScreen.tsx:21 | without a `vccNo` the screen shows the spinner for good |
| ViewRecord.NoMatchShowsNotFound | MirsalDubai/src/screen/ViewRecordScreen.tsx:28-37 | a lookup that matches nothing, or fails, ends on "No record found" |
| ViewRecord.MatchShowsFirstDocument | MirsalDubai/src/screen/ViewRecordScreen.tsx:28-30 | a successful lookup shows the rows of the first matching document |
| Scenarios.AddThenView | MirsalDubai/src/screen/AddRecordScreen.tsx:67-71 | after saving a record with a new `vccNo`, the view screen for that `vccNo` shows the saved payload, with each plain row showing the typed value |
| Scenarios.EditThenView | MirsalDubai/src/screen/EditRecordScreen.tsx:85-96 | after editing one field (not `vccNo`) and submitting, the view screen shows the fetched document with just that field changed |
| Scenarios.EditOwnerNameThenView | MirsalDubai/src/screen/ViewRecordScreen.tsx:89 | after changing the owner name, the view's "Owner Name" row shows the new name |
| Scenarios.DeleteThenSnapshot | MirsalDubai/src/screen/ViewScreen.tsx:72-79 | after a delete, the next snapshot lists the remaining documents in order, one fewer, and the deleted document is gone |

## Left out

- Rendering, style sheets, list and scroll layout, alert dialogs and console output: they have no logical content. The delete confirmation dialog is kept only as the `confirmed` flag.
- `LoginScreen.tsx` (a pass-through to password sign-in plus a navigate call) and `App.tsx` (a static route table) are not part of this model.
- Navigation is kept only as a `navigatedBack` flag on the edit and add states. The list's View/Edit/Add buttons only navigate, so they are left out.
- The edit screen's Back button (EditRecordScreen.tsx:118-123) only navigates back; the edit screen is modelled by its handlers, not by an event type, so the button is not modelled. The add screen's Back button is the `BackPressed` event.
- The backend SDK's internals, ordering and consistency: the collection order stands for the backend's, a new document is appended, and any call may fail through the `rejected` flag. `AddRecord.OnlySubmitWrites` relies on the append; `AddRecord.EarlierDocumentsStay` states the same guarantee without it.
- Field values are strings. `timestamp` is really a Date object; here it is an opaque string parameter, because the clock is outside the model. Non-string values, for which `toLowerCase` in the search would throw, are not modelled.
- Text.Lower: only ASCII letters are lower-cased; the platform's full Unicode `toLowerCase` is not modelled.
- The list cards' "Gen Date" / "Date Added" text uses the device's default locale and is left out with the rest of the rendering.
- Async timing, and lookups that complete after the screen has unmounted, are concurrency with no logic to model; each handler is one atomic step.
- Date parsing is a parameter (`string -> Option<CalendarDate>`), since it depends on the platform and time zone.
- ViewRecord.RowValue: a non-empty date field is shown as `FormatDate` of it; for a parsed date outside day 1-31, month 1-12 and a four-digit year the text is not stated further, as for `DateFormat.FormatDate`.
- DateFormat.FormatDate: the length and digit layout are stated only for valid dates (day 1-31, month 1-12, four-digit year); a day or month outside those ranges is printed as its digits, which is not how the platform would normalise such a date.
- ListScreen.DeleteRecord: an undefined `vccNo` key is modelled as the backend refusing the `where` clause, which the error handler catches; so nothing is deleted.
- Edit and view `Fetch` model one run of the effect. The effect would re-run only when the `vccNo` parameter changes, and that re-run is not modelled.

=== FILE: add_record.dfy ===
/** The add-record screen: a fixed form of 21 text inputs whose values are
    saved as one new document tagged with the signed-in user and a creation
    time. */
module AddRecord {
  import opened Wrappers
  import opened Backend
  import opened Forms
  import opened FieldTables

  /** The set of names the form holds. */
  function FieldNameSet(): set<string> {
    set f | f in AddFields :: f.name
  }

  /** The 21 field names are pairwise distinct. */
  lemma AddFieldsDistinct()
    ensures |AddFields| == 21
    ensures Distinct(Names(AddFields))
  {
    FirstRowNamesDiffer();
    MiddleRowNamesDiffer();
    LastRowNamesDiffer();
  }

  /** The names of fields 0 to 6, then 7 to 13, then 14 to 20, are repeated
      by no later field. */
  lemma FirstRowNamesDiffer()
    ensures forall i, j :: 0 <= i < 7 && i < j < 21 ==> AddFields[i].name != AddFields[j].name
  {
  }

  lemma MiddleRowNamesDiffer()
    ensures forall i, j :: 7 <= i < 14 && i < j < 21 ==> AddFields[i].name != AddFields[j].name
  {
  }

  lemma LastRowNamesDiffer()
    ensures forall i, j :: 14 <= i < 21 && i < j < 21 ==> AddFields[i].name != AddFields[j].name
  {
  }

  /** The initial (and reset) form: each of the 21 names maps to '' and there
      is no other key. */
  function InitialForm(): Data {
    BlankForm(AddFields)
  }

  lemma InitialFormShape()
    ensures InitialForm().Keys == FieldNameSet()
    ensures |InitialForm()| == 21
    ensures forall k :: k in InitialForm() ==> InitialForm()[k] == ""
    ensures "vccNo" in InitialForm() && "vccStatus" in InitialForm()
  {
    AddFieldsDistinct();
    var names := Names(AddFields);
    NameSet(AddFields);
    DistinctCardinality(names);
    assert AddFields[0].name == "vccNo" && AddFields[20].name == "vccStatus";
  }

  /** The screen's local state; `user` is what the auth-state listener last
      reported (null until it first fires). */
  datatype AddState = AddState(formData: Data, user: Option<User>, navigatedBack: bool)

  function Mounted(): AddState {
    AddState(InitialForm(), None, false)
  }

  /** The document written: `{ ...formData, userId: user.uid, timestamp }`.
      The two provenance keys are spread last, so they override any form key
      of the same name. */
  function Payload(form: Data, uid: string, stamp: string): (r: Data)
    ensures r.Keys == form.Keys + {"userId", "timestamp"}
    ensures r["userId"] == uid && r["timestamp"] == stamp
    ensures forall k :: k in form && k != "userId" && k != "timestamp" ==> r[k] == form[k]
  {
    form + map["userId" := uid, "timestamp" := stamp]
  }

  datatype SubmitOutcome = AuthRequired | Saved | SaveFailed

  /** `handleSubmit`. `newId` is the identifier the backend assigns, `stamp`
      the creation time, `rejected` whether the backend fails the write. */
  function Submit(s: AddState, c: Collection, newId: string, stamp: string, rejected: bool)
    : (r: (AddState, Collection, SubmitOutcome))
    ensures s.user.None? ==> r == (s, c, AuthRequired)
    ensures r.2 == Saved <==> s.user.Some? && !rejected
    ensures r.2 == Saved ==>
              && r.1 == c + [Doc(newId, Payload(s.formData, s.user.value.uid, stamp))]
              && r.0.formData == InitialForm()
              && r.0.navigatedBack
    ensures r.2 != Saved ==> r.1 == c && r.0 == s
  {
    match s.user
    case None => (s, c, AuthRequired)
    case Some(u) =>
      if rejected then (s, c, SaveFailed)
      else
        var written := AddDoc(c, newId, Payload(s.formData, u.uid, stamp));
        (s.(formData := InitialForm(), navigatedBack := true), written, Saved)
  }

  /** What can happen on the screen. */
  datatype AddEvent =
    | AuthChanged(user: Option<User>)          // the auth-state listener fires
    | Typed(index: nat, text: string)          // the `index`-th input's text changes
    | Submitted(newId: string, stamp: string, rejected: bool)
    | BackPressed                               // the Back button: `navigation.goBack()`

  /** One event: the auth listener sets the user, an input sets its own
      field, the Back button only navigates, and only a submit touches the
      collection. */
  function Step(s: AddState, c: Collection, e: AddEvent): (r: (AddState, Collection))
    ensures r.0.user == (if e.AuthChanged? then e.user else s.user)
    ensures !e.Submitted? ==> r.1 == c
    ensures !e.Submitted? && !e.BackPressed? ==> r.0.navigatedBack == s.navigatedBack
    ensures e.BackPressed? ==> r.0 == s.(navigatedBack := true)
    ensures e.Submitted? ==>
              var sub := Submit(s, c, e.newId, e.stamp, e.rejected);
              r == (sub.0, sub.1)
    ensures e.AuthChanged? ==> r.0.formData == s.formData
    ensures e.Typed? && e.index < |AddFields| ==>
              r.0.formData == SetField(s.formData, AddFields[e.index].name, e.text)
    ensures e.Typed? && e.index >= |AddFields| ==> r.0 == s
  {
    match e
    case AuthChanged(u) => (s.(user := u), c)
    case Typed(i, text) =>
      if i < |AddFields| then (s.(formData := SetField(s.formData, AddFields[i].name, text)), c)
      else (s, c)
    case Submitted(id, stamp, rejected) =>
      var r := Submit(s, c, id, stamp, rejected);
      (r.0, r.1)
    case BackPressed => (s.(navigatedBack := true), c)
  }

  /** Events in order. Without a submit the collection is untouched; without
      an auth change the user is as it was. */
  function Run(s: AddState, c: Collection, events: seq<AddEvent>): (r: (AddState, Collection))
    ensures (forall i :: 0 <= i < |events| ==> !events[i].Submitted?) ==> r.1 == c
    ensures (forall i :: 0 <= i < |events| ==> !events[i].AuthChanged?) ==> r.0.user == s.user
    decreases |events|
  {
    if events == [] then (s, c)
    else
      var next := Step(s, c, events[0]);
      Run(next.0, next.1, events[1..])
  }

  /** Changes are only issued for the form's own field names, so the form's
      key set stays exactly the field-name set, whatever happens. */
  lemma {:induction false} FormKeysInvariant(s: AddState, c: Collection, events: seq<AddEvent>)
    requires s.formData.Keys == FieldNameSet()
    ensures Run(s, c, events).0.formData.Keys == FieldNameSet()
    decreases |events|
  {
    if events != [] {
      var next := Step(s, c, events[0]);
      StepKeepsFormKeys(s, c, events[0]);
      FormKeysInvariant(next.0, next.1, events[1..]);
    }
  }

  lemma StepKeepsFormKeys(s: AddState, c: Collection, e: AddEvent)
    requires s.formData.Keys == FieldNameSet()
    ensures Step(s, c, e).0.formData.Keys == FieldNameSet()
  {
    match e
    case AuthChanged(_) =>
    case Typed(i, text) =>
      if i < |AddFields| {
        SetFieldKeepsKeys(s.formData, AddFields, i, text);
      }
    case Submitted(id, stamp, rejected) =>
      InitialFormShape();
    case BackPressed =>
  }

  lemma FormKeysFromMount(c: Collection, events: seq<AddEvent>)
    ensures Run(Mounted(), c, events).0.formData.Keys == FieldNameSet()
  {
    InitialFormShape();
    FormKeysInvariant(Mounted(), c, events);
  }

  /** Only a successful submit changes the collection, and it adds exactly one
      document; every earlier document is kept in place. */
  lemma {:induction false} OnlySubmitWrites(s: AddState, c: Collection, events: seq<AddEvent>)
    ensures |Run(s, c, events).1| >= |c|
    ensures Run(s, c, events).1[..|c|] == c
    decreases |events|
  {
    if events != [] {
      var next := Step(s, c, events[0]);
      assert |next.1| >= |c| && next.1[..|c|] == c;
      OnlySubmitWrites(next.0, next.1, events[1..]);
      var final := Run(next.0, next.1, events[1..]).1;
      assert final[..|c|] == final[..|next.1|][..|c|];
    }
  }

  /** Whatever order the backend keeps, no document present before the
      events is gone after them. */
  lemma EarlierDocumentsStay(s: AddState, c: Collection, events: seq<AddEvent>)
    ensures forall d :: d in c ==> d in Run(s, c, events).1
  {
    var final := Run(s, c, events).1;
    OnlySubmitWrites(s, c, events);
    forall d | d in c
      ensures d in final
    {
      var i :| 0 <= i < |c| && c[i] == d;
      assert final[..|c|][i] == d;
    }
  }

  /** A save under an identifier no document has keeps identifiers unique. */
  lemma SubmitKeepsUniqueIds(s: AddState, c: Collection, newId: string, stamp: string, rejected: bool)
    requires UniqueIds(c) && !HasId(c, newId)
    ensures UniqueIds(Submit(s, c, newId, stamp, rejected).1)
  {
    if s.user.Some? && !rejected {
      AddKeepsUniqueIds(c, newId, Payload(s.formData, s.user.value.uid, stamp));
    }
  }
}

=== FILE: backend.dfy ===
/** The hosted document store as the screens see it: one collection
    (`submissions`) of documents, each an opaque identifier and a map of
    named string fields, plus the handful of client calls the app makes.
    The order of the sequence stands for whatever order the backend returns
    documents in; the app always takes the first match of a query. */
module Backend {
  import opened Wrappers
  import Seqs

  /** The fields of one document. */
  type Data = map<string, string>

  datatype Doc = Doc(id: string, data: Data)

  type Collection = seq<Doc>

  /** The signed-in user of the identity service. */
  datatype User = User(uid: string)

  /** Document identifiers are unique within a collection. */
  ghost predicate UniqueIds(c: Collection) {
    forall i, j :: 0 <= i < |c| && 0 <= j < |c| && c[i].id == c[j].id ==> i == j
  }

  predicate HasId(c: Collection, id: string) {
    exists i :: 0 <= i < |c| && c[i].id == id
  }

  /** The document's field `field` is present and equal to `value`. */
  predicate FieldIs(d: Doc, field: string, value: string) {
    field in d.data && d.data[field] == value
  }

  /** `getDocs(query(collection, where(field, '==', value)))`: the matching
      documents, in collection order. */
  function QueryEquals(c: Collection, field: string, value: string): (r: Collection)
    ensures |r| <= |c|
    ensures forall d :: d in r <==> d in c && FieldIs(d, field, value)
  {
    Seqs.Filter(c, d => FieldIs(d, field, value))
  }

  /** The query result keeps the collection's order. */
  lemma QueryIsSubsequence(c: Collection, field: string, value: string)
    ensures Seqs.SubseqOf(QueryEquals(c, field, value), c)
  {
    Seqs.FilterIsSubsequence(c, d => FieldIs(d, field, value));
  }

  /** The position of the first document whose `field` equals `value`. */
  function FirstMatch(c: Collection, field: string, value: string): (r: Option<nat>)
    ensures r.Some? ==> r.value < |c| && FieldIs(c[r.value], field, value)
    ensures r.Some? ==> forall j :: 0 <= j < r.value ==> !FieldIs(c[j], field, value)
    ensures r.None? ==> forall j :: 0 <= j < |c| ==> !FieldIs(c[j], field, value)
    decreases |c|
  {
    if c == [] then None
    else if FieldIs(c[0], field, value) then Some(0)
    else
      match FirstMatch(c[1..], field, value)
      case None => None
      case Some(i) => Some(i + 1)
  }

  /** A position that matches, with nothing matching before it, is the first
      match. */
  lemma FirstMatchAt(c: Collection, field: string, value: string, i: nat)
    requires i < |c| && FieldIs(c[i], field, value)
    requires forall j :: 0 <= j < i ==> !FieldIs(c[j], field, value)
    ensures FirstMatch(c, field, value) == Some(i)
  {
  }

  /** The first document of the query result is the collection's first match,
      and the result is empty exactly when nothing matches. */
  lemma {:induction false} QueryHeadIsFirstMatch(c: Collection, field: string, value: string)
    ensures QueryEquals(c, field, value) == [] <==> FirstMatch(c, field, value).None?
    ensures FirstMatch(c, field, value).Some? ==>
              QueryEquals(c, field, value)[0] == c[FirstMatch(c, field, value).value]
    decreases |c|
  {
    if c != [] {
      QueryHeadIsFirstMatch(c[1..], field, value);
      var keep := (d: Doc) => FieldIs(d, field, value);
      if !FieldIs(c[0], field, value) {
        assert Seqs.Filter(c, keep) == Seqs.Filter(c[1..], keep);
        match FirstMatch(c[1..], field, value)
        case None =>
        case Some(i) =>
          assert c[1..][i] == c[i + 1];
      }
    }
  }

  /** `updateDoc(doc(id), patch)` applied to one document's fields: every
      key of the patch is overwritten, every other key is kept. */
  function Merge(base: Data, patch: Data): (r: Data)
    ensures r.Keys == base.Keys + patch.Keys
    ensures forall k :: k in patch ==> r[k] == patch[k]
    ensures forall k :: k in base && k !in patch ==> r[k] == base[k]
  {
    base + patch
  }

  /** Merging a document with a patch it already agrees with changes nothing. */
  lemma MergeAgreeing(base: Data, patch: Data)
    requires forall k :: k in patch ==> k in base && base[k] == patch[k]
    ensures Merge(base, patch) == base
  {
  }

  /** `updateDoc(doc(db, collection, id), patch)`: merges `patch` into the
      document with identifier `id`. None when no such document exists (the
      backend refuses an update of a missing document). */
  function UpdateDoc(c: Collection, id: string, patch: Data): (r: Option<Collection>)
    ensures r.Some? <==> HasId(c, id)
    ensures r.Some? ==> |r.value| == |c|
    ensures r.Some? ==> forall i :: 0 <= i < |c| && c[i].id == id ==>
                          r.value[i] == Doc(id, Merge(c[i].data, patch))
    ensures r.Some? ==> forall i :: 0 <= i < |c| && c[i].id != id ==> r.value[i] == c[i]
  {
    if HasId(c, id) then
      Some(seq(|c|, i requires 0 <= i < |c| =>
             if c[i].id == id then Doc(id, Merge(c[i].data, patch)) else c[i]))
    else None
  }

  /** `deleteDoc(doc(db, collection, id))`: every document with that identifier
      is gone, every other one stays, in order. */
  function DeleteDoc(c: Collection, id: string): (r: Collection)
    ensures forall d :: d in r <==> d in c && d.id != id
    ensures |r| <= |c|
  {
    Seqs.Filter(c, (d: Doc) => d.id != id)
  }

  /** With unique identifiers, deleting the identifier of the document at
      position `i` removes exactly that position. */
  lemma DeleteAt(c: Collection, i: nat)
    requires UniqueIds(c) && i < |c|
    ensures DeleteDoc(c, c[i].id) == c[..i] + c[i + 1..]
  {
    var id := c[i].id;
    var keep := (d: Doc) => d.id != id;
    assert c == c[..i] + ([c[i]] + c[i + 1..]);
    Seqs.FilterAppend(c[..i], [c[i]] + c[i + 1..], keep);
    Seqs.FilterAppend([c[i]], c[i + 1..], keep);
    Seqs.FilterSingleton(c[i], keep);
    assert forall j :: 0 <= j < |c[..i]| ==> keep(c[..i][j]) by {
      forall j | 0 <= j < |c[..i]|
        ensures keep(c[..i][j])
      {
        assert c[..i][j] == c[j];
      }
    }
    Seqs.FilterAll(c[..i], keep);
    var after := c[i + 1..];
    assert forall j :: 0 <= j < |after| ==> keep(after[j]) by {
      forall j | 0 <= j < |after|
        ensures keep(after[j])
      {
        assert after[j] == c[i + 1 + j];
      }
    }
    Seqs.FilterAll(c[i + 1..], keep);
  }

  /** `addDoc(collection, data)` with the identifier the backend assigned. */
  function AddDoc(c: Collection, id: string, data: Data): (r: Collection)
    ensures |r| == |c| + 1 && r[..|c|] == c
    ensures r[|c|] == Doc(id, data)
  {
    c + [Doc(id, data)]
  }

  /** A fresh identifier keeps identifiers unique. */
  lemma AddKeepsUniqueIds(c: Collection, id: string, data: Data)
    requires UniqueIds(c) && !HasId(c, id)
    ensures UniqueIds(AddDoc(c, id, data))
  {
  }

  /** Updates never change identifiers, so they keep them unique. */
  lemma UpdateKeepsUniqueIds(c: Collection, id: string, patch: Data)
    requires UniqueIds(c) && HasId(c, id)
    ensures UniqueIds(UpdateDoc(c, id, patch).value)
  {
  }
}

=== FILE: date_format.dfy ===
/** `formatDate` of the view screen: parse a stored date string and render
    it with the `en-GB` short date pattern, day/month/year. Parsing is the
    platform's (`new Date(s)`), so it is a parameter here; an unparseable
    string is the platform's Invalid Date. */
module DateFormat {
  import opened Wrappers

  /** A calendar day as the platform's date object reports it locally. */
  datatype CalendarDate = CalendarDate(day: nat, month: nat, year: nat)

  /** Days, months and four-digit years the `en-GB` pattern prints in fixed width. */
  predicate Valid(d: CalendarDate) {
    1 <= d.day <= 31 && 1 <= d.month <= 12 && 1000 <= d.year <= 9999
  }

  function Pow10(k: nat): (r: nat)
    ensures r >= 1
  {
    if k == 0 then 1 else 10 * Pow10(k - 1)
  }

  predicate IsDigit(c: char) {
    '0' <= c <= '9'
  }

  predicate AllDigits(s: string) {
    forall i :: 0 <= i < |s| ==> IsDigit(s[i])
  }

  function DigitChar(n: nat): (c: char)
    requires n < 10
    ensures IsDigit(c) && c as int - '0' as int == n
  {
    (n + '0' as int) as char
  }

  /** The number a string of decimal digits denotes. */
  function DigitsValue(s: string): nat
    requires AllDigits(s)
    decreases |s|
  {
    if s == [] then 0
    else DigitsValue(s[..|s| - 1]) * 10 + (s[|s| - 1] as int - '0' as int)
  }

  /** `n` in decimal, zero-padded on the left to at least `width` digits. */
  function Decimal(n: nat, width: nat): (r: string)
    ensures AllDigits(r) && DigitsValue(r) == n
    ensures |r| >= 1 && |r| >= width
    ensures width >= 1 && n < Pow10(width) ==> |r| == width
    decreases n + width
  {
    var head := if n < 10 && width <= 1 then "" else Decimal(n / 10, if width == 0 then 0 else width - 1);
    var r := head + [DigitChar(n % 10)];
    assert r[..|r| - 1] == head;
    assert n == n / 10 * 10 + n % 10;
    assert width >= 2 && n < Pow10(width) ==> n / 10 < Pow10(width - 1);
    r
  }

  /** Without padding a number has the same digits whatever minimum width of
      at most one is asked for. */
  lemma DecimalZeroOne(n: nat)
    ensures Decimal(n, 0) == Decimal(n, 1)
  {
  }

  /** Padding to `width` adds nothing to a number that already has at least
      `width` digits. */
  lemma {:induction false} DecimalUnpadded(n: nat, width: nat)
    requires width >= 1 && n >= Pow10(width - 1)
    ensures Decimal(n, width) == Decimal(n, 1)
    decreases width
  {
    if width > 1 {
      assert n >= 10;
      assert n / 10 >= Pow10(width - 2);
      DecimalUnpadded(n / 10, width - 1);
      DecimalZeroOne(n / 10);
    }
  }

  /** `toLocaleDateString('en-GB')`, the pattern `dd/MM/y`: day and month
      padded to two digits, the year printed with no padding. */
  function EnGB(d: CalendarDate): (r: string)
    ensures |r| >= 7
    ensures Valid(d) ==> |r| == 10 && r[2] == '/' && r[5] == '/'
    ensures Valid(d) ==> AllDigits(r[..2]) && AllDigits(r[3..5]) && AllDigits(r[6..])
  {
    var dd := Decimal(d.day, 2);
    var mm := Decimal(d.month, 2);
    var yyyy := Decimal(d.year, 1);
    var r := dd + "/" + mm + "/" + yyyy;
    assert Pow10(2) == 100 && Pow10(4) == 10000 && Pow10(3) == 1000;
    assert Valid(d) ==> yyyy == Decimal(d.year, 4) by {
      if Valid(d) {
        DecimalUnpadded(d.year, 4);
      }
    }
    assert Valid(d) ==> r[..2] == dd && r[3..5] == mm && r[6..] == yyyy;
    r
  }

  /** A year before 1000 is printed with as many digits as it has. */
  lemma ShortYearUnpadded()
    ensures EnGB(CalendarDate(1, 1, 500)) == "01/01/500"
  {
    assert DigitChar(0) == '0' && DigitChar(1) == '1' && DigitChar(5) == '5';
    var five := Decimal(5, 0);
    assert five == "5";
    var fifty := Decimal(50, 0);
    assert fifty == five + "0";
    var year := Decimal(500, 1);
    assert year == fifty + "0";
    var zero := Decimal(0, 1);
    assert zero == "0";
    var day := Decimal(1, 2);
    assert day == zero + "1";
    assert EnGB(CalendarDate(1, 1, 500)) == day + "/" + day + "/" + year;
  }

  /** Reads a dd/mm/yyyy string back into a date. */
  function ParseEnGB(s: string): Option<CalendarDate> {
    if |s| == 10 && s[2] == '/' && s[5] == '/' &&
       AllDigits(s[..2]) && AllDigits(s[3..5]) && AllDigits(s[6..])
    then Some(CalendarDate(DigitsValue(s[..2]), DigitsValue(s[3..5]), DigitsValue(s[6..])))
    else None
  }

  /** The rendering is ten characters and loses nothing: reading it back
      gives the same day, month and year. */
  lemma EnGBRoundTrip(d: CalendarDate)
    requires Valid(d)
    ensures |EnGB(d)| == 10
    ensures ParseEnGB(EnGB(d)) == Some(d)
  {
    var dd := Decimal(d.day, 2);
    var mm := Decimal(d.month, 2);
    var yyyy := Decimal(d.year, 1);
    assert Pow10(2) == 100 && Pow10(4) == 10000 && Pow10(3) == 1000;
    DecimalUnpadded(d.year, 4);
    var s := EnGB(d);
    assert s[..2] == dd && s[3..5] == mm && s[6..] == yyyy;
  }

  /** `formatDate(dateString)`: '' for an unparseable date, otherwise the
      `en-GB` rendering of the parsed date. */
  function FormatDate(parse: string -> Option<CalendarDate>, s: string): (r: string)
    ensures parse(s).None? ==> r == ""
    ensures parse(s).Some? && Valid(parse(s).value) ==>
              |r| == 10 && ParseEnGB(r) == parse(s)
  {
    match parse(s)
    case None => ""
    case Some(d) =>
      assert Valid(d) ==> |EnGB(d)| == 10 && ParseEnGB(EnGB(d)) == Some(d) by {
        if Valid(d) {
          EnGBRoundTrip(d);
        }
      }
      EnGB(d)
  }
}

=== FILE: edit_record.dfy ===
/** The edit-record screen: look a record up by its `vccNo` route parameter,
    pre-fill a 19-field form with the whole document, and merge the form back
    into the same document on submit. */
module EditRecord {
  import opened Wrappers
  import opened Backend
  import opened Forms
  import opened FieldTables
  import AddRecord

  function EditNameSet(): set<string> {
    set f | f in EditFields :: f.name
  }

  /** The edit form has 19 distinct names. */
  lemma EditFieldsDistinct()
    ensures |EditFields| == 19 && Distinct(Names(EditFields))
  {
    EditNamesArePrefix();
    AddRecord.AddFieldsDistinct();
    PrefixKeepsDistinct(EditFields, AddFields);
  }

  /** The edit fields' names are the add form's first 19, in the same order. */
  lemma EditNamesArePrefix()
    ensures |EditFields| == 19
    ensures forall i :: 0 <= i < 19 ==> EditFields[i].name == AddFields[i].name
  {
    NamesAgreeUpTo5();
    NamesAgreeUpTo10();
    NamesAgreeUpTo15();
    NamesAgreeUpTo19();
  }

  /** Fields 0 to 4, 5 to 9, 10 to 14 and 15 to 18 have the add form's names. */
  lemma NamesAgreeUpTo5()
    ensures forall i :: 0 <= i < 5 ==> EditFields[i].name == AddFields[i].name
  {
  }

  lemma NamesAgreeUpTo10()
    ensures forall i :: 5 <= i < 10 ==> EditFields[i].name == AddFields[i].name
  {
  }

  lemma NamesAgreeUpTo15()
    ensures forall i :: 10 <= i < 15 ==> EditFields[i].name == AddFields[i].name
  {
  }

  lemma NamesAgreeUpTo19()
    ensures forall i :: 15 <= i < 19 ==> EditFields[i].name == AddFields[i].name
  {
  }

  /** The edit form's names are exactly the add form's names except
      `printRemark` and `vccStatus`. */
  lemma EditFieldsAreAddFieldsButTwo()
    ensures EditNameSet() == AddRecord.FieldNameSet() - {"printRemark", "vccStatus"}
  {
    var add := AddFields;
    EditNamesArePrefix();
    AddRecord.AddFieldsDistinct();
    PrefixNames(EditFields, add);
    assert add[19].name == "printRemark" && add[20].name == "vccStatus";
    assert NamesFrom(add, 19) == {"printRemark", "vccStatus"};
  }

  /** `formData`, `loading` and `docId` of the screen, plus whether it has
      navigated back. */
  datatype EditState = EditState(formData: Data, loading: bool, docId: Option<string>,
                                 navigatedBack: bool)

  const Mounted := EditState(map[], true, None, false)

  /** `fetchRecord`. A missing or empty `vccNo` parameter navigates back
      before the `try`, so its `finally` never runs and `loading` stays as it
      was. Otherwise the equality query runs; `rejected` says whether it
      fails. */
  function Fetch(s: EditState, param: Option<string>, c: Collection, rejected: bool): (r: EditState)
    ensures !Truthy(param) ==> r == s.(navigatedBack := true)
    ensures Truthy(param) ==> !r.loading
    ensures Truthy(param) && !rejected && FirstMatch(c, "vccNo", param.value).Some? ==>
              var i := FirstMatch(c, "vccNo", param.value).value;
              r == EditState(c[i].data, false, Some(c[i].id), s.navigatedBack)
    ensures Truthy(param) && (rejected || FirstMatch(c, "vccNo", param.value).None?) ==>
              r == s.(loading := false, navigatedBack := true)
  {
    if !Truthy(param) then s.(navigatedBack := true)
    else if rejected then s.(loading := false, navigatedBack := true)
    else
      var q := QueryEquals(c, "vccNo", param.value);
      QueryHeadIsFirstMatch(c, "vccNo", param.value);
      if q == [] then s.(loading := false, navigatedBack := true)
      else s.(formData := q[0].data, docId := Some(q[0].id), loading := false)
  }

  /** `handleChange(name, value)` on the screen state. */
  function Change(s: EditState, name: string, value: string): (r: EditState)
    ensures r.formData == SetField(s.formData, name, value)
    ensures r.loading == s.loading && r.docId == s.docId && r.navigatedBack == s.navigatedBack
  {
    s.(formData := SetField(s.formData, name, value))
  }

  /** The `index`-th rendered input issues a change for its own name;
      there is no input beyond the last field. */
  function Typed(s: EditState, index: nat, text: string): (r: EditState)
    ensures index < |EditFields| ==> r.formData == SetField(s.formData, EditFields[index].name, text)
    ensures index >= |EditFields| ==> r == s
    ensures r.loading == s.loading && r.docId == s.docId && r.navigatedBack == s.navigatedBack
  {
    if index < |EditFields| then Change(s, EditFields[index].name, text) else s
  }

  /** A run of typing keeps every key the form had and adds only edit-field
      names, and the last edit's text is in its field; nothing but the form
      changes. */
  function TypeAll(s: EditState, edits: seq<(nat, string)>): (r: EditState)
    ensures s.formData.Keys <= r.formData.Keys <= s.formData.Keys + EditNameSet()
    ensures r.loading == s.loading && r.docId == s.docId && r.navigatedBack == s.navigatedBack
    ensures edits != [] && edits[|edits| - 1].0 < |EditFields| ==>
              var last := edits[|edits| - 1];
              var name := EditFields[last.0].name;
              name in r.formData && r.formData[name] == last.1
    decreases |edits|
  {
    if edits == [] then s
    else
      var i := edits[0].0;
      var rest := edits[1..];
      var typed := Typed(s, i, edits[0].1);
      assert i < |EditFields| ==> EditFields[i] in EditFields;
      assert i < |EditFields| ==> typed.formData == SetField(s.formData, EditFields[i].name, edits[0].1);
      assert rest != [] ==> rest[|rest| - 1] == edits[|edits| - 1];
      TypeAll(typed, rest)
  }

  /** Typing never touches a key outside the 19 edit fields: such keys keep
      their fetched values (or stay absent), and nothing but the form changes. */
  lemma {:induction false} TypingKeepsOtherKeys(s: EditState, edits: seq<(nat, string)>, k: string)
    requires k !in EditNameSet()
    ensures var r := TypeAll(s, edits);
            && (k in r.formData <==> k in s.formData)
            && (k in s.formData ==> r.formData[k] == s.formData[k])
            && r.docId == s.docId && r.loading == s.loading
    decreases |edits|
  {
    if edits != [] {
      var i := edits[0].0;
      if i < |EditFields| {
        assert EditFields[i] in EditFields;
      }
      TypingKeepsOtherKeys(Typed(s, i, edits[0].1), edits[1..], k);
    }
  }

  /** What the screen shows: a spinner while loading, otherwise one value
      per edit field, in form order. */
  function Shown(s: EditState): (r: Option<seq<string>>)
    ensures r.None? <==> s.loading
    ensures r.Some? ==> |r.value| == |EditFields|
    ensures r.Some? ==> forall i :: 0 <= i < |EditFields| ==>
              r.value[i] == DisplayValue(s.formData, EditFields[i].name)
  {
    if s.loading then None else Some(Inputs(s.formData, EditFields))
  }

  datatype EditOutcome = NoDocument | Updated | UpdateFailed

  /** `handleSubmit`: refused without a `docId`; otherwise `updateDoc` merges
      the whole form into that document. `rejected` says whether the backend
      fails the write. */
  function Submit(s: EditState, c: Collection, rejected: bool): (r: (EditState, Collection, EditOutcome))
    ensures s.docId.None? ==> r == (s, c, NoDocument)
    ensures r.2 == Updated <==> s.docId.Some? && !rejected && HasId(c, s.docId.value)
    ensures r.2 != Updated ==> r.1 == c && r.0 == s
    ensures r.2 == Updated ==>
              && r.0 == s.(navigatedBack := true)
              && |r.1| == |c|
              && (forall i :: 0 <= i < |c| && c[i].id != s.docId.value ==> r.1[i] == c[i])
              && (forall i :: 0 <= i < |c| && c[i].id == s.docId.value ==>
                    r.1[i].id == c[i].id &&
                    r.1[i].data.Keys == c[i].data.Keys + s.formData.Keys &&
                    (forall k :: k in s.formData ==> r.1[i].data[k] == s.formData[k]) &&
                    (forall k :: k in c[i].data && k !in s.formData ==> r.1[i].data[k] == c[i].data[k]))
  {
    match s.docId
    case None => (s, c, NoDocument)
    case Some(id) =>
      if rejected then (s, c, UpdateFailed)
      else
        match UpdateDoc(c, id, s.formData)
        case None => (s, c, UpdateFailed)
        case Some(c') => (s.(navigatedBack := true), c', Updated)
  }

  /** An update never changes identifiers, so it keeps them unique. */
  lemma SubmitKeepsUniqueIds(s: EditState, c: Collection, rejected: bool)
    requires UniqueIds(c)
    ensures UniqueIds(Submit(s, c, rejected).1)
  {
    if Submit(s, c, rejected).2 == Updated {
      UpdateKeepsUniqueIds(c, s.docId.value, s.formData);
    }
  }

  /** Submitting without edits writes the fetched fields back unchanged: the
      collection is as it was. */
  lemma SubmitUneditedIsIdempotent(c: Collection, param: Option<string>)
    requires UniqueIds(c)
    ensures var s := Fetch(Mounted, param, c, false);
            Submit(s, c, false).1 == c
  {
    var s := Fetch(Mounted, param, c, false);
    if Truthy(param) && FirstMatch(c, "vccNo", param.value).Some? {
      var i := FirstMatch(c, "vccNo", param.value).value;
      assert HasId(c, c[i].id);
      var r := Submit(s, c, false).1;
      MergeAgreeing(c[i].data, c[i].data);
      forall j | 0 <= j < |c|
        ensures r[j] == c[j]
      {
        if c[j].id == c[i].id {
          assert j == i;
        }
      }
    }
  }
}

=== FILE: field_tables.dfy ===
/** The two form layouts: the add screen's 21 inputs and the edit screen's
    19, each with its label, the record field it binds and its input kind. */
module FieldTables {
  import opened Forms

  /** `formFields`, in display order. */
  const AddFields: seq<FormField> := [
    FormField("VCC No", "vccNo", TextKind),
    FormField("VCC Generation date", "vccDate", DateKind),
    FormField("Chasis No.", "chasisNo", TextKind),
    FormField("Engine No", "engineNo", TextKind),
    FormField("Vehicle Driver", "driver", TextKind),
    FormField("Year of build", "buildYear", TextKind),
    FormField("Country of origin", "origin", TextKind),
    FormField("Engine capacity", "engineCapacity", TextKind),
    FormField("Carriage capacity", "carriageCapacity", TextKind),
    FormField("Passenger capacity", "passengerCapacity", TextKind),
    FormField("Vehicle Modal", "vehicleModal", TextKind),
    FormField("Vehicle Brand Name", "brandName", TextKind),
    FormField("Vehicle Type", "vehicleType", TextKind),
    FormField("Vehicle Color", "color", TextKind),
    FormField("Specification Standard Name", "specification", TextKind),
    FormField("Declaration Number", "declarationNo", TextKind),
    FormField("Declaration Date", "declarationDate", DateKind),
    FormField("Owner Code", "ownerCode", TextKind),
    FormField("Owner Name", "ownerName", TextKind),
    FormField("Print Remark", "printRemark", TextKind),
    FormField("Vcc Status", "vccStatus", TextKind)
  ]

  /** `formFields` of the edit form: the add form without `printRemark` and
      `vccStatus`; every input is plain text here. */
  const EditFields: seq<FormField> := [
    FormField("VCC No", "vccNo", TextKind),
    FormField("VCC Generation date", "vccDate", TextKind),
    FormField("Chasis No.", "chasisNo", TextKind),
    FormField("Engine No", "engineNo", TextKind),
    FormField("Vehicle Driver", "driver", TextKind),
    FormField("Year of build", "buildYear", TextKind),
    FormField("Country of origin", "origin", TextKind),
    FormField("Engine capacity", "engineCapacity", TextKind),
    FormField("Carriage capacity", "carriageCapacity", TextKind),
    FormField("Passenger capacity", "passengerCapacity", TextKind),
    FormField("Vehicle Modal", "vehicleModal", TextKind),
    FormField("Vehicle Brand Name", "brandName", TextKind),
    FormField("Vehicle Type", "vehicleType", TextKind),
    FormField("Vehicle Color", "color", TextKind),
    FormField("Specification Standard Name", "specification", TextKind),
    FormField("Declaration Number", "declarationNo", TextKind),
    FormField("Declaration Date", "declarationDate", TextKind),
    FormField("Owner Code", "ownerCode", TextKind),
    FormField("Owner Name", "ownerName", TextKind)
  ]
}

=== FILE: forms.dfy ===
/** What the two form screens share: a field descriptor, the form state as a
    map from field name to text, and the single-key update made on each
    keystroke. */
module Forms {
  import opened Wrappers
  import opened Backend

  datatype FieldKind = TextKind | DateKind

  /** `{ label, name, type }` of one input (`label` is a Dafny keyword, hence `caption`). */
  datatype FormField = FormField(caption: string, name: string, kind: FieldKind)

  /** The field names, in form order. */
  function Names(fields: seq<FormField>): (r: seq<string>)
    ensures |r| == |fields|
    ensures forall i :: 0 <= i < |fields| ==> r[i] == fields[i].name
  {
    seq(|fields|, i requires 0 <= i < |fields| => fields[i].name)
  }

  /** The set of names of a field list is the set of its name sequence. */
  lemma NameSet(fields: seq<FormField>)
    ensures (set f | f in fields :: f.name) == set n | n in Names(fields)
  {
  }

  /** No name is used by two fields. */
  predicate Distinct(names: seq<string>) {
    forall i, j :: 0 <= i < j < |names| ==> names[i] != names[j]
  }

  /** A sequence of distinct names has as many elements as its set. */
  lemma {:induction false} DistinctCardinality(names: seq<string>)
    requires Distinct(names)
    ensures |set n | n in names| == |names|
    decreases |names|
  {
    if names != [] {
      var last := names[|names| - 1];
      var init := names[..|names| - 1];
      DistinctCardinality(init);
      assert (set n | n in names) == (set n | n in init) + {last};
      assert forall k :: 0 <= k < |init| ==> init[k] != last;
    }
  }

  /** The names of the fields from position `k` on. */
  function NamesFrom(fields: seq<FormField>, k: nat): set<string> {
    set i | k <= i < |fields| :: fields[i].name
  }

  function NamesOf(fields: seq<FormField>): set<string> {
    set f | f in fields :: f.name
  }

  /** A field list that repeats the names of another list's first fields
      has the other list's names less those of the fields it does not repeat. */
  lemma PrefixNames(short: seq<FormField>, long: seq<FormField>)
    requires |short| <= |long| && Distinct(Names(long))
    requires forall i :: 0 <= i < |short| ==> short[i].name == long[i].name
    ensures NamesOf(short) == NamesOf(long) - NamesFrom(long, |short|)
  {
    var names := Names(long);
    forall n | n in NamesOf(short)
      ensures n in NamesOf(long) - NamesFrom(long, |short|)
    {
      var i :| 0 <= i < |short| && short[i].name == n;
      assert long[i] in long;
      forall j | |short| <= j < |long|
        ensures long[j].name != n
      {
        assert names[i] != names[j];
      }
    }
    forall n | n in NamesOf(long) - NamesFrom(long, |short|)
      ensures n in NamesOf(short)
    {
      var i :| 0 <= i < |long| && long[i].name == n;
      assert i < |short|;
      assert short[i] in short;
    }
  }

  /** Names copied from a list of distinct names are distinct. */
  lemma PrefixKeepsDistinct(short: seq<FormField>, long: seq<FormField>)
    requires |short| <= |long| && Distinct(Names(long))
    requires forall i :: 0 <= i < |short| ==> short[i].name == long[i].name
    ensures Distinct(Names(short))
  {
    var names := Names(long);
    forall i, j | 0 <= i < j < |short|
      ensures Names(short)[i] != Names(short)[j]
    {
      assert names[i] != names[j];
    }
  }

  /** `fields.reduce((acc, f) => ({ ...acc, [f.name]: '' }), {})`: every field
      name mapped to the empty string, and nothing else. */
  function BlankForm(fields: seq<FormField>): (m: Data)
    ensures m.Keys == set f | f in fields :: f.name
    ensures forall k :: k in m ==> m[k] == ""
    decreases |fields|
  {
    if fields == [] then map[]
    else
      var init := fields[..|fields| - 1];
      var acc := BlankForm(init);
      assert fields == init + [fields[|fields| - 1]];
      acc[fields[|fields| - 1].name := ""]
  }

  /** `handleChange(name, value)`: `{ ...form, [name]: value }`. */
  function SetField(form: Data, name: string, value: string): (r: Data)
    ensures r.Keys == form.Keys + {name}
    ensures r[name] == value
    ensures forall k :: k in form && k != name ==> r[k] == form[k]
  {
    form[name := value]
  }

  /** Changes issued only for names of the form's fields keep the form's key
      set exactly the field-name set. */
  lemma SetFieldKeepsKeys(form: Data, fields: seq<FormField>, i: nat, value: string)
    requires form.Keys == set f | f in fields :: f.name
    requires i < |fields|
    ensures SetField(form, fields[i].name, value).Keys == form.Keys
  {
  }

  /** `formData[name] || ''`, the value an input shows. */
  function DisplayValue(form: Data, name: string): (r: string)
    ensures r == (if name in form then form[name] else "")
  {
    OrEmpty(Lookup(form, name))
  }

  /** The values of a row of inputs bound to `fields`. */
  function Inputs(form: Data, fields: seq<FormField>): (r: seq<string>)
    ensures |r| == |fields|
    ensures forall i :: 0 <= i < |fields| ==> r[i] == DisplayValue(form, fields[i].name)
  {
    seq(|fields|, i requires 0 <= i < |fields| => DisplayValue(form, fields[i].name))
  }
}

=== FILE: list_screen.dfy ===
/** The record list screen: a live snapshot of the whole collection,
    client-side search on `vccNo` / `chasisNo`, truncation to a chosen page
    size, and the guarded delete action. */
module ListScreen {
  import opened Wrappers
  import Text
  import Seqs
  import opened Backend

  /** One list entry, `{ id: doc.id, ...doc.data() }`: the document's fields
      with its identifier under `id`, unless the data has an `id` of its own,
      which then wins because it is spread last. */
  function ToRecord(d: Doc): (r: Data)
    ensures r.Keys == d.data.Keys + {"id"}
    ensures forall k :: k in d.data ==> r[k] == d.data[k]
    ensures "id" !in d.data ==> r["id"] == d.id
  {
    map["id" := d.id] + d.data
  }

  /** The records a snapshot delivers, in snapshot order. */
  function FromSnapshot(docs: Collection): (r: seq<Data>)
    ensures |r| == |docs|
    ensures forall i :: 0 <= i < |docs| ==> r[i] == ToRecord(docs[i])
  {
    seq(|docs|, i requires 0 <= i < |docs| => ToRecord(docs[i]))
  }

  /** `r.field?.toLowerCase().includes(term.toLowerCase())`; an absent field
      short-circuits to `undefined`, which is falsy. */
  predicate FieldIncludes(r: Data, field: string, term: string) {
    field in r && Text.Contains(Text.Lower(r[field]), Text.Lower(term))
  }

  /** The search predicate of the list. */
  predicate MatchesSearch(r: Data, term: string) {
    FieldIncludes(r, "vccNo", term) || FieldIncludes(r, "chasisNo", term)
  }

  /** Case-insensitive substring match of `term` in field `field`, stated
      without the scanning algorithm. */
  ghost predicate FieldHasTerm(r: Data, field: string, term: string) {
    field in r && Text.IsSubstring(Text.Lower(term), Text.Lower(r[field]))
  }

  /** `filteredRecords`: the records whose `vccNo` or `chasisNo` contains the
      search term ignoring case, in their original order. */
  function FilteredRecords(records: seq<Data>, term: string): (r: seq<Data>)
    ensures |r| <= |records|
    ensures forall x :: x in r <==>
              x in records && (FieldHasTerm(x, "vccNo", term) || FieldHasTerm(x, "chasisNo", term))
  {
    Seqs.Filter(records, x => MatchesSearch(x, term))
  }

  /** The filtered list is an order-preserving subsequence of the records. */
  lemma FilteredIsSubsequence(records: seq<Data>, term: string)
    ensures Seqs.SubseqOf(FilteredRecords(records, term), records)
  {
    Seqs.FilterIsSubsequence(records, x => MatchesSearch(x, term));
  }

  /** With an empty search term every record that has a `vccNo` or a
      `chasisNo` is kept, and a record with neither is still dropped. */
  lemma EmptyTermKeepsKeyedRecords(records: seq<Data>)
    ensures forall x :: x in FilteredRecords(records, "") <==>
              x in records && ("vccNo" in x || "chasisNo" in x)
  {
    assert Text.Lower("") == "";
    forall x | x in records
      ensures MatchesSearch(x, "") <==> "vccNo" in x || "chasisNo" in x
    {
      if "vccNo" in x {
        Text.ContainsEmpty(Text.Lower(x["vccNo"]));
      }
      if "chasisNo" in x {
        Text.ContainsEmpty(Text.Lower(x["chasisNo"]));
      }
    }
  }

  /** Search ignores case: two terms that lower-case alike select the same
      records; in particular a term and its lower-cased form do. */
  lemma SearchIgnoresCase(records: seq<Data>, t1: string, t2: string)
    requires Text.Lower(t1) == Text.Lower(t2)
    ensures FilteredRecords(records, t1) == FilteredRecords(records, t2)
  {
    Seqs.FilterCongruent(records, x => MatchesSearch(x, t1), x => MatchesSearch(x, t2));
  }

  lemma SearchByLoweredTerm(records: seq<Data>, t: string)
    ensures FilteredRecords(records, t) == FilteredRecords(records, Text.Lower(t))
  {
    Text.LowerIdempotent(t);
    SearchIgnoresCase(records, t, Text.Lower(t));
  }

  /** `displayedRecords`: the first `perPage` filtered records. */
  function DisplayedRecords(records: seq<Data>, term: string, perPage: nat): (r: seq<Data>)
    ensures r <= FilteredRecords(records, term)
    ensures |r| == Seqs.Min(perPage, |FilteredRecords(records, term)|)
    ensures forall x :: x in r ==> x in records && MatchesSearch(x, term)
  {
    var filtered := FilteredRecords(records, term);
    var shown := Seqs.Take(filtered, perPage);
    assert forall x :: x in shown ==> x in filtered by {
      forall x | x in shown
        ensures x in filtered
      {
        var i :| 0 <= i < |shown| && shown[i] == x;
        assert filtered[i] == x;
      }
    }
    shown
  }

  /** The page-size buttons, in display order. */
  const PageButtons: seq<nat> := [10, 25, 50, 100]

  const DefaultPageSize: nat := 50

  /** The local state of the list screen. */
  datatype ListState = ListState(records: seq<Data>, searchTerm: string, entriesPerPage: nat)

  const Initial := ListState([], "", DefaultPageSize)

  /** What can happen to the screen once mounted. */
  datatype ListEvent =
    | SnapshotArrived(docs: Collection)  // the subscription delivers the collection
    | SnapshotFailed                     // the subscription reports an error (alert only)
    | SearchTyped(term: string)          // the search box changes
    | PageButtonPressed(index: nat)      // the `index`-th page-size button is pressed

  /** One event. Each handler sets one piece of state: a snapshot the
      records, the search box the term, a button the page size. */
  function Step(s: ListState, e: ListEvent): (r: ListState)
    ensures r.records == (if e.SnapshotArrived? then FromSnapshot(e.docs) else s.records)
    ensures r.searchTerm == (if e.SearchTyped? then e.term else s.searchTerm)
    ensures r.entriesPerPage ==
              (if e.PageButtonPressed? && e.index < |PageButtons| then PageButtons[e.index]
               else s.entriesPerPage)
  {
    match e
    case SnapshotArrived(docs) => s.(records := FromSnapshot(docs))
    case SnapshotFailed => s
    case SearchTyped(term) => s.(searchTerm := term)
    case PageButtonPressed(i) =>
      if i < |PageButtons| then s.(entriesPerPage := PageButtons[i]) else s
  }

  /** Event `k` is a snapshot and no later event is. */
  predicate LastSnapshotAt(events: seq<ListEvent>, k: nat) {
    k < |events| && events[k].SnapshotArrived? &&
    forall j :: k < j < |events| ==> !events[j].SnapshotArrived?
  }

  /** Event `k` is typing in the search box and no later event is. */
  predicate LastTermAt(events: seq<ListEvent>, k: nat) {
    k < |events| && events[k].SearchTyped? &&
    forall j :: k < j < |events| ==> !events[j].SearchTyped?
  }

  /** The state after a sequence of events: without a snapshot the records
      are as they were, without typing the term is as it was, and the last
      snapshot or the last term typed is the one that stays, whatever other
      events follow it. */
  function Run(s: ListState, events: seq<ListEvent>): (r: ListState)
    ensures (forall i :: 0 <= i < |events| ==> !events[i].SnapshotArrived?) ==> r.records == s.records
    ensures (forall i :: 0 <= i < |events| ==> !events[i].SearchTyped?) ==> r.searchTerm == s.searchTerm
    ensures forall k: nat :: LastSnapshotAt(events, k) ==> r.records == FromSnapshot(events[k].docs)
    ensures forall k: nat :: LastTermAt(events, k) ==> r.searchTerm == events[k].term
    decreases |events|
  {
    if events == [] then s
    else
      var rest := events[1..];
      assert forall j :: 0 <= j < |rest| ==> rest[j] == events[j + 1];
      assert forall k: nat :: 0 < k && LastSnapshotAt(events, k) ==> LastSnapshotAt(rest, k - 1);
      assert forall k: nat :: 0 < k && LastTermAt(events, k) ==> LastTermAt(rest, k - 1);
      assert LastSnapshotAt(events, 0) ==> forall i :: 0 <= i < |rest| ==> !rest[i].SnapshotArrived?;
      assert LastTermAt(events, 0) ==> forall i :: 0 <= i < |rest| ==> !rest[i].SearchTyped?;
      Run(Step(s, events[0]), rest)
  }

  /** What the screen shows for a state. */
  function Shown(s: ListState): (r: seq<Data>)
    ensures |r| <= s.entriesPerPage
    ensures forall x :: x in r ==> x in s.records && MatchesSearch(x, s.searchTerm)
  {
    DisplayedRecords(s.records, s.searchTerm, s.entriesPerPage)
  }

  /** The page size starts at 50 and only ever takes a button's value. */
  lemma {:induction false} PageSizeIsAlwaysAButton(s: ListState, events: seq<ListEvent>)
    requires s.entriesPerPage in PageButtons
    ensures Run(s, events).entriesPerPage in PageButtons
    decreases |events|
  {
    if events != [] {
      PageSizeIsAlwaysAButton(Step(s, events[0]), events[1..]);
    }
  }

  lemma PageSizeFromMount(events: seq<ListEvent>)
    ensures Initial.entriesPerPage == 50
    ensures Run(Initial, events).entriesPerPage in {10, 25, 50, 100}
  {
    PageSizeIsAlwaysAButton(Initial, events);
  }

  /** A snapshot replaces the records wholesale: what was there before has no
      influence, and the search and page size are kept. */
  lemma SnapshotReplacesRecords(s1: ListState, s2: ListState, docs: Collection)
    requires s1.searchTerm == s2.searchTerm && s1.entriesPerPage == s2.entriesPerPage
    ensures Step(s1, SnapshotArrived(docs)) == Step(s2, SnapshotArrived(docs))
    ensures Step(s1, SnapshotArrived(docs)).searchTerm == s1.searchTerm
    ensures Step(s1, SnapshotArrived(docs)).entriesPerPage == s1.entriesPerPage
    ensures |Step(s1, SnapshotArrived(docs)).records| == |docs|
    ensures forall i :: 0 <= i < |docs| ==>
              Step(s1, SnapshotArrived(docs)).records[i] == ToRecord(docs[i])
    ensures forall i :: 0 <= i < |docs| ==>
              Step(s1, SnapshotArrived(docs)).records[i]["id"] ==
                (if "id" in docs[i].data then docs[i].data["id"] else docs[i].id)
  {
  }

  /** How a delete request ends. */
  datatype DeleteOutcome =
    | Cancelled          // the confirmation dialog was dismissed
    | AuthRequired       // no user is signed in
    | Deleted(id: string)
    | NoMatch            // the query found no document with that `vccNo`
    | DeleteFailed       // the backend rejected the query or the delete

  /** `DeleteRecord(vccNo)` after the confirmation dialog. `key` is the list
      entry's `vccNo`, which may be undefined; the backend refuses an
      equality query on `undefined`, which lands in the error handler.
      `rejected` says whether the backend fails the query or the delete. */
  function DeleteRecord(c: Collection, currentUser: Option<User>, key: Option<string>,
                        confirmed: bool, rejected: bool): (r: (Collection, DeleteOutcome))
    ensures !confirmed || currentUser.None? ==> r.0 == c
    ensures r.1.Deleted? <==>
              confirmed && currentUser.Some? && key.Some? && !rejected &&
              FirstMatch(c, "vccNo", key.value).Some?
    ensures r.1.Deleted? ==>
              var i := FirstMatch(c, "vccNo", key.value).value;
              r.1.id == c[i].id && r.0 == DeleteDoc(c, c[i].id)
    ensures !r.1.Deleted? ==> r.0 == c
  {
    if !confirmed then (c, Cancelled)
    else if currentUser.None? then (c, AuthRequired)
    else if key.None? || rejected then (c, DeleteFailed)
    else
      var q := QueryEquals(c, "vccNo", key.value);
      QueryHeadIsFirstMatch(c, "vccNo", key.value);
      if q == [] then (c, NoMatch)
      else (DeleteDoc(c, q[0].id), Deleted(q[0].id))
  }

  /** With unique document identifiers, a successful delete removes exactly
      the first document whose `vccNo` equals the key and nothing else. */
  lemma DeleteRemovesFirstMatchOnly(c: Collection, user: User, key: string)
    requires UniqueIds(c)
    ensures var r := DeleteRecord(c, Some(user), Some(key), true, false);
            match FirstMatch(c, "vccNo", key)
            case None => r == (c, NoMatch)
            case Some(i) => r.0 == c[..i] + c[i + 1..]
  {
    match FirstMatch(c, "vccNo", key)
    case None =>
    case Some(i) => DeleteAt(c, i);
  }
}

=== FILE: scenarios.dfy ===
/** Properties that span screens: a record added on the add screen is what
    the view screen shows for its `vccNo`; an edit is what the view screen
    shows afterwards; a delete is gone from the next list snapshot. */
module Scenarios {
  import opened Wrappers
  import opened Backend
  import opened DateFormat
  import AddRecord
  import EditRecord
  import ViewRecord
  import ListScreen

  /** Adding a record whose `vccNo` no existing document has, then opening
      the view screen with that `vccNo`, shows exactly the submitted
      document: every plain row shows the value typed into the form. */
  lemma AddThenView(s: AddRecord.AddState, c: Collection, newId: string, stamp: string,
                    parse: string -> Option<CalendarDate>)
    requires s.user.Some?
    requires "vccNo" in s.formData && s.formData["vccNo"] != ""
    requires FirstMatch(c, "vccNo", s.formData["vccNo"]).None?
    ensures var added := AddRecord.Submit(s, c, newId, stamp, false);
            var key := s.formData["vccNo"];
            var payload := AddRecord.Payload(s.formData, s.user.value.uid, stamp);
            var v := ViewRecord.Fetch(ViewRecord.Mounted, Some(key), added.1, false);
            && added.2 == AddRecord.Saved
            && v.record == Some(payload)
            && ViewRecord.Render(v, parse) == ViewRecord.Details(ViewRecord.Project(payload, parse))
            && (forall i | 0 <= i < |ViewRecord.DetailRows| ::
                  var row := ViewRecord.DetailRows[i];
                  row.kind == ViewRecord.Plain && row.field in s.formData &&
                  row.field != "userId" && row.field != "timestamp" ==>
                    ViewRecord.Project(payload, parse)[i].1 == s.formData[row.field])
  {
  }

  /** Opening the edit screen, changing one field and submitting, then
      opening the view screen with the same `vccNo`, shows the new value in
      that field's row and keeps every other field. */
  lemma EditThenView(c: Collection, key: string, name: string, value: string,
                     parse: string -> Option<CalendarDate>)
    requires UniqueIds(c)
    requires key != "" && FirstMatch(c, "vccNo", key).Some?
    requires name != "vccNo"
    ensures var i := FirstMatch(c, "vccNo", key).value;
            var fetched := EditRecord.Fetch(EditRecord.Mounted, Some(key), c, false);
            var edited := EditRecord.Change(fetched, name, value);
            var submitted := EditRecord.Submit(edited, c, false);
            var v := ViewRecord.Fetch(ViewRecord.Mounted, Some(key), submitted.1, false);
            && submitted.2 == EditRecord.Updated
            && v.record == Some(c[i].data[name := value])
            && (forall j | 0 <= j < |ViewRecord.DetailRows| ::
                  var row := ViewRecord.DetailRows[j];
                  row.kind == ViewRecord.Plain && row.field == name ==>
                    ViewRecord.Project(v.record.value, parse)[j].1 == value)
  {
    var i := FirstMatch(c, "vccNo", key).value;
    var fetched := EditRecord.Fetch(EditRecord.Mounted, Some(key), c, false);
    var edited := EditRecord.Change(fetched, name, value);
    assert edited.formData == c[i].data[name := value];
    assert HasId(c, c[i].id);
    var c' := EditRecord.Submit(edited, c, false).1;
    assert c'[i].data == c[i].data[name := value];
    assert FieldIs(c'[i], "vccNo", key);
    forall j | 0 <= j < i
      ensures !FieldIs(c'[j], "vccNo", key)
    {
      assert c[j].id != c[i].id;
    }
    FirstMatchAt(c', "vccNo", key, i);
  }

  /** The concrete case: changing the owner name makes the view's
      "Owner Name" row show the new name. */
  lemma EditOwnerNameThenView(c: Collection, key: string, newName: string,
                              parse: string -> Option<CalendarDate>)
    requires UniqueIds(c)
    requires key != "" && FirstMatch(c, "vccNo", key).Some?
    ensures var fetched := EditRecord.Fetch(EditRecord.Mounted, Some(key), c, false);
            var edited := EditRecord.Change(fetched, "ownerName", newName);
            var c' := EditRecord.Submit(edited, c, false).1;
            var v := ViewRecord.Fetch(ViewRecord.Mounted, Some(key), c', false);
            ViewRecord.Render(v, parse).Details? &&
            ViewRecord.Render(v, parse).rows[19] == ("Owner Name", newName)
  {
    EditThenView(c, key, "ownerName", newName, parse);
    ViewRecord.OwnerNameRow();
  }

  /** A confirmed delete by a signed-in user removes the first document with
      that `vccNo`; the next snapshot shows one record fewer, namely the
      remaining documents in their order. */
  lemma DeleteThenSnapshot(s: ListScreen.ListState, c: Collection, user: User, key: string)
    requires UniqueIds(c) && FirstMatch(c, "vccNo", key).Some?
    ensures var i := FirstMatch(c, "vccNo", key).value;
            var deleted := ListScreen.DeleteRecord(c, Some(user), Some(key), true, false);
            var after := ListScreen.Step(s, ListScreen.SnapshotArrived(deleted.0));
            && deleted.1 == ListScreen.Deleted(c[i].id)
            && c[i] !in deleted.0
            && after.records == ListScreen.FromSnapshot(c[..i] + c[i + 1..])
            && |after.records| == |c| - 1
  {
    var i := FirstMatch(c, "vccNo", key).value;
    ListScreen.DeleteRemovesFirstMatchOnly(c, user, key);
  }
}

=== FILE: seqs.dfy ===
/** Order-preserving filtering and prefix truncation of sequences: the
    `Array.prototype.filter` and `slice(0, n)` the screens use, and the
    equality query of the backend. */
module Seqs {

  /** `xs` is an order-preserving subsequence of `ys`: either empty, or its
      head is matched against the head of `ys`, or the head of `ys` is skipped. */
  ghost predicate SubseqOf<T>(xs: seq<T>, ys: seq<T>)
    decreases |ys|
  {
    || xs == []
    || (ys != [] && ((xs[0] == ys[0] && SubseqOf(xs[1..], ys[1..])) || SubseqOf(xs, ys[1..])))
  }

  /** `xs.filter(keep)`: the elements of `xs` that satisfy `keep`, in order. */
  function Filter<T(!new)>(xs: seq<T>, keep: T -> bool): (r: seq<T>)
    ensures |r| <= |xs|
    ensures forall x :: x in r <==> x in xs && keep(x)
    decreases |xs|
  {
    if xs == [] then []
    else
      var rest := Filter(xs[1..], keep);
      assert forall x :: x in xs <==> x == xs[0] || x in xs[1..];
      if keep(xs[0]) then [xs[0]] + rest else rest
  }

  /** Filtering distributes over concatenation. Together with the one-element
      case this pins `Filter` down completely. */
  lemma {:induction false} FilterAppend<T(!new)>(xs: seq<T>, ys: seq<T>, keep: T -> bool)
    ensures Filter(xs + ys, keep) == Filter(xs, keep) + Filter(ys, keep)
    decreases |xs|
  {
    if xs == [] {
      assert xs + ys == ys;
    } else {
      assert (xs + ys)[1..] == xs[1..] + ys;
      FilterAppend(xs[1..], ys, keep);
    }
  }

  lemma FilterSingleton<T(!new)>(x: T, keep: T -> bool)
    ensures Filter([x], keep) == if keep(x) then [x] else []
  {
  }

  /** The filtered sequence is an order-preserving subsequence of the input. */
  lemma {:induction false} FilterIsSubsequence<T(!new)>(xs: seq<T>, keep: T -> bool)
    ensures SubseqOf(Filter(xs, keep), xs)
    decreases |xs|
  {
    if xs != [] {
      FilterIsSubsequence(xs[1..], keep);
      var rest := Filter(xs[1..], keep);
      if keep(xs[0]) {
        assert Filter(xs, keep) == [xs[0]] + rest;
        assert ([xs[0]] + rest)[1..] == rest;
      } else {
        assert Filter(xs, keep) == rest;
      }
    }
  }

  /** Filters by two predicates that agree on every element are equal. */
  lemma {:induction false} FilterCongruent<T(!new)>(xs: seq<T>, p: T -> bool, q: T -> bool)
    requires forall i :: 0 <= i < |xs| ==> p(xs[i]) == q(xs[i])
    ensures Filter(xs, p) == Filter(xs, q)
    decreases |xs|
  {
    if xs != [] {
      assert p(xs[0]) == q(xs[0]);
      assert forall i :: 0 <= i < |xs[1..]| ==> xs[1..][i] == xs[i + 1];
      FilterCongruent(xs[1..], p, q);
    }
  }

  /** A filter whose predicate holds everywhere keeps the whole sequence. */
  lemma {:induction false} FilterAll<T(!new)>(xs: seq<T>, keep: T -> bool)
    requires forall i :: 0 <= i < |xs| ==> keep(xs[i])
    ensures Filter(xs, keep) == xs
    decreases |xs|
  {
    if xs != [] {
      var tail := xs[1..];
      assert forall i :: 0 <= i < |tail| ==> keep(tail[i]) by {
        forall i | 0 <= i < |tail|
          ensures keep(tail[i])
        {
          assert tail[i] == xs[i + 1];
        }
      }
      FilterAll(tail, keep);
      assert keep(xs[0]);
      assert xs == [xs[0]] + tail;
    }
  }

  function Min(a: nat, b: nat): nat {
    if a <= b then a else b
  }

  /** `xs.slice(0, n)`: the first `n` elements, or all of them when fewer. */
  function Take<T>(xs: seq<T>, n: nat): (r: seq<T>)
    ensures |r| == Min(n, |xs|)
    ensures r <= xs
  {
    if n <= |xs| then xs[..n] else xs
  }

  /** A larger page shows everything a smaller one shows, and more. */
  lemma TakeMonotone<T>(xs: seq<T>, m: nat, n: nat)
    requires m <= n
    ensures Take(xs, m) <= Take(xs, n)
  {
  }
}

=== FILE: text.dfy ===
/** The two string operations the list search uses: `toLowerCase` and
    `includes`. Lower-casing is modelled on ASCII letters only. */
module Text {

  /** ASCII lower-casing of one character; every other character is kept. */
  function LowerChar(c: char): (r: char)
    ensures 'A' <= c <= 'Z' ==> 'a' <= r <= 'z' && r as int == c as int + 32
    ensures !('A' <= c <= 'Z') ==> r == c
  {
    if 'A' <= c <= 'Z' then (c as int - 'A' as int + 'a' as int) as char else c
  }

  /** `s.toLowerCase()`, character by character. */
  function Lower(s: string): (r: string)
    ensures |r| == |s|
    ensures forall i :: 0 <= i < |s| ==> r[i] == LowerChar(s[i])
    ensures forall i :: 0 <= i < |r| ==> !('A' <= r[i] <= 'Z')
  {
    seq(|s|, i requires 0 <= i < |s| => LowerChar(s[i]))
  }

  /** Lower-casing twice is lower-casing once. */
  lemma LowerIdempotent(s: string)
    ensures Lower(Lower(s)) == Lower(s)
  {
  }

  /** `t` occurs in `s` starting at index `i`. */
  predicate OccursAt(s: string, t: string, i: nat) {
    i + |t| <= |s| && s[i..i + |t|] == t
  }

  /** `t` is a substring of `s`, the meaning `includes` implements. */
  ghost predicate IsSubstring(t: string, s: string) {
    exists i: nat :: i <= |s| && OccursAt(s, t, i)
  }

  /** A slice of `s[1..]` is the slice of `s` one position further on. */
  lemma TailSlice(s: string, j: nat, n: nat)
    requires 1 <= |s| && j + n <= |s| - 1
    ensures s[1..][j..j + n] == s[j + 1..j + 1 + n]
  {
  }

  /** `s.includes(t)`: scans `s` for the first place where `t` is a prefix. */
  function Contains(s: string, t: string): (r: bool)
    ensures r <==> IsSubstring(t, s)
    decreases |s|
  {
    if t <= s then
      assert OccursAt(s, t, 0);
      true
    else if |s| == 0 then
      false
    else
      var rest := Contains(s[1..], t);
      assert !OccursAt(s, t, 0);
      if rest then
        var j: nat :| j <= |s[1..]| && OccursAt(s[1..], t, j);
        TailSlice(s, j, |t|);
        assert OccursAt(s, t, j + 1);
        true
      else
        assert forall i: nat :: i <= |s| ==> !OccursAt(s, t, i) by {
          forall i: nat | 1 <= i <= |s| && OccursAt(s, t, i)
            ensures false
          {
            TailSlice(s, i - 1, |t|);
            assert OccursAt(s[1..], t, i - 1);
          }
        }
        false
  }

  /** Every string includes the empty string. */
  lemma ContainsEmpty(s: string)
    ensures Contains(s, "")
  {
  }
}

=== FILE: view_record.dfy ===
/** The read-only record screen: look a record up by its `vccNo` route
    parameter and show 21 labelled values, dates through `formatDate`. */
module ViewRecord {
  import opened Wrappers
  import opened Backend
  import opened DateFormat

  /** `record` and `loading` of the screen. */
  datatype ViewState = ViewState(record: Option<Data>, loading: bool)

  const Mounted := ViewState(None, true)

  /** `fetchRecord`. A missing or empty `vccNo` returns at once, before the
      `try`, so `loading` is never cleared. Otherwise `loading` is cleared
      whatever the query gives; `rejected` says whether the query fails. */
  function Fetch(s: ViewState, param: Option<string>, c: Collection, rejected: bool): (r: ViewState)
    ensures !Truthy(param) ==> r == s
    ensures Truthy(param) ==> !r.loading
    ensures Truthy(param) && !rejected && FirstMatch(c, "vccNo", param.value).Some? ==>
              r.record == Some(c[FirstMatch(c, "vccNo", param.value).value].data)
    ensures Truthy(param) && (rejected || FirstMatch(c, "vccNo", param.value).None?) ==>
              r.record == s.record
  {
    if !Truthy(param) then s
    else if rejected then s.(loading := false)
    else
      var q := QueryEquals(c, "vccNo", param.value);
      QueryHeadIsFirstMatch(c, "vccNo", param.value);
      if q == [] then s.(loading := false)
      else s.(record := Some(q[0].data), loading := false)
  }

  datatype RowKind = Plain | Dated

  /** One entry of `allData`: its label, the record field it reads, and
      whether the value goes through `formatDate`. */
  datatype RowSpec = RowSpec(caption: string, field: string, kind: RowKind)

  /** `allData`, in display order. */
  const DetailRows: seq<RowSpec> := [
    RowSpec("VCC No", "vccNo", Plain),
    RowSpec("VCC Status", "vccStatus", Plain),
    RowSpec("VCC Generation Date", "vccDate", Dated),
    RowSpec("Chassis No", "chasisNo", Plain),
    RowSpec("Engine Number", "engineNo", Plain),
    RowSpec("Year of Built", "buildYear", Plain),
    RowSpec("Vehicle Drive", "driver", Plain),
    RowSpec("Country of Origin", "origin", Plain),
    RowSpec("Engine Capacity", "engineCapacity", Plain),
    RowSpec("Carriage Capacity", "carriageCapacity", Plain),
    RowSpec("Passenger Capacity", "passengerCapacity", Plain),
    RowSpec("Vehicle Model", "vehicleModal", Plain),
    RowSpec("Vehicle Brand Name", "brandName", Plain),
    RowSpec("Vehicle Type", "vehicleType", Plain),
    RowSpec("Vehicle Color", "color", Plain),
    RowSpec("Specification Standard Name", "specification", Plain),
    RowSpec("Declaration Number", "declarationNo", Plain),
    RowSpec("Declaration Date", "declarationDate", Dated),
    RowSpec("Owner Code", "ownerCode", Plain),
    RowSpec("Owner Name", "ownerName", Plain),
    RowSpec("Print Remarks", "printRemark", Plain)
  ]

  /** The value of one row: `record.f || ''`, or for a date row
      `record.f ? formatDate(record.f) : ''`. */
  function RowValue(record: Data, row: RowSpec, parse: string -> Option<CalendarDate>): (r: string)
    ensures row.kind == Plain ==> r == (if row.field in record then record[row.field] else "")
    ensures row.kind == Dated && (row.field !in record || record[row.field] == "") ==> r == ""
    ensures row.kind == Dated && row.field in record && parse(record[row.field]).None? ==> r == ""
    ensures row.kind == Dated && row.field in record && record[row.field] != "" &&
            parse(record[row.field]).Some? && Valid(parse(record[row.field]).value) ==>
              ParseEnGB(r) == parse(record[row.field])
    ensures row.kind == Dated && row.field in record && record[row.field] != "" ==>
              r == FormatDate(parse, record[row.field])
  {
    var v := Lookup(record, row.field);
    match row.kind
    case Plain => OrEmpty(v)
    case Dated => if Truthy(v) then FormatDate(parse, v.value) else ""
  }

  /** The `(label, value)` pairs shown for a record: 21 rows, labels in the
      fixed order. */
  function Project(record: Data, parse: string -> Option<CalendarDate>): (rows: seq<(string, string)>)
    ensures |rows| == |DetailRows| == 21
    ensures forall i :: 0 <= i < |rows| ==>
              rows[i] == (DetailRows[i].caption, RowValue(record, DetailRows[i], parse))
  {
    seq(|DetailRows|, i requires 0 <= i < |DetailRows| =>
          (DetailRows[i].caption, RowValue(record, DetailRows[i], parse)))
  }

  /** The "Owner Name" row reads `ownerName` as plain text. */
  lemma OwnerNameRow()
    ensures |DetailRows| == 21
    ensures DetailRows[19] == RowSpec("Owner Name", "ownerName", Plain)
  {
  }

  /** What the screen shows. */
  datatype Screen = Spinner | NoRecordFound | Details(rows: seq<(string, string)>)

  function Render(s: ViewState, parse: string -> Option<CalendarDate>): (r: Screen)
    ensures s.loading <==> r.Spinner?
    ensures r.NoRecordFound? <==> !s.loading && s.record.None?
    ensures r.Details? ==> s.record.Some? && r.rows == Project(s.record.value, parse)
  {
    if s.loading then Spinner
    else match s.record
      case None => NoRecordFound
      case Some(rec) => Details(Project(rec, parse))
  }

  /** Without a `vccNo` the screen shows the spinner for good. */
  lemma MissingParamStaysLoading(param: Option<string>, c: Collection, rejected: bool,
                                 parse: string -> Option<CalendarDate>)
    requires !Truthy(param)
    ensures Render(Fetch(Mounted, param, c, rejected), parse) == Spinner
  {
  }

  /** A lookup that matches nothing, or fails, ends on "No record found";
      the screen does not navigate away. */
  lemma NoMatchShowsNotFound(param: Option<string>, c: Collection, rejected: bool,
                             parse: string -> Option<CalendarDate>)
    requires Truthy(param)
    requires rejected || FirstMatch(c, "vccNo", param.value).None?
    ensures Render(Fetch(Mounted, param, c, rejected), parse) == NoRecordFound
  {
  }

  /** A successful lookup shows the first matching document's fields. */
  lemma MatchShowsFirstDocument(key: string, c: Collection, parse: string -> Option<CalendarDate>)
    requires key != "" && FirstMatch(c, "vccNo", key).Some?
    ensures var d := c[FirstMatch(c, "vccNo", key).value];
            Render(Fetch(Mounted, Some(key), c, false), parse) == Details(Project(d.data, parse))
  {
  }
}

=== FILE: wrappers.dfy ===
/** Optional values and JavaScript truthiness of optional strings.

    The screens read record fields that may be absent (`record.vccDate`,
    `r.vccNo?.…`) and route parameters that may be missing; in JavaScript
    both `undefined` and the empty string are falsy. */
module Wrappers {

  /** A value that may be absent, the model of `undefined` / `null`. */
  datatype Option<+T> = None | Some(value: T) {

    /** The value, or `default` when absent. */
    function GetOr(default: T): T {
      match this
      case Some(v) => v
      case None => default
    }
  }

  /** Looks a key up in a string-keyed record; absent keys give None. */
  function Lookup<V>(m: map<string, V>, key: string): (r: Option<V>)
    ensures r.Some? <==> key in m
    ensures r.Some? ==> r.value == m[key]
  {
    if key in m then Some(m[key]) else None
  }

  /** JavaScript truthiness of an optional string: neither undefined nor ''. */
  predicate Truthy(o: Option<string>) {
    o.Some? && o.value != ""
  }

  /** The expression `o || ''` for an optional string. */
  function OrEmpty(o: Option<string>): (r: string)
    ensures Truthy(o) ==> r == o.value
    ensures !Truthy(o) ==> r == ""
    ensures r == o.GetOr("")
  {
    if Truthy(o) then o.value else ""
  }
}
